=== FILE: README.md ===
# JARVIS assistant core in Dafny

This project models the two decision procedures of the JARVIS personal
assistant.

- **The text endpoint** (`JARVIS.py`). `handle_message` routes one chat
  message. It tries its branches in a fixed order over the lower-cased text,
  and the first that matches wins:
  1. an `"open "` prefix gives an open-URL command, using a three-entry site
     table or a `https://www.<name>.com` guess;
  2. `"weather in"` looks up the city that follows it;
  3. a bare `"weather"` gets a hint about the expected format;
  4. anything else goes to the generative model.

  `get_weather` and `generate_response` are modelled with their external
  services as oracles. `ask_assistant` rejects a missing or empty message
  with a 400 error. Otherwise it turns the routed reply into a JSON object.
- **The date/time responder** (`datetime_utils.py`). `get_date_suffix` gives
  the ordinal suffix of a day of the month. `handle_datetime_message`
  speaks the time when a message mentions "time". Failing that, it speaks
  the date when the message mentions "date". The current instant is a
  parameter. The texts passed to `speak` come back as a list.

The configuration and the external services live in a `Backends` record.
It holds whether a weather key is configured, the generative model as a
function from prompt to reply, and the weather provider as a function from
city to reply. Every handler returns its result together with the list of
requests it made of these services. That list is what the "no lookup" and
"sent the original message" properties are stated over. An exception that
nothing in the code catches is the outcome `Raised`. The web framework
answers it with a 500 response.

Python's string operations live in the `PyStr` module. They are `lower`,
`strip`, `in`, `startswith`, `split(sep)[-1]` and `replace(pat, "")`, with
the left-to-right first-occurrence search the last two perform. Each comes with the properties the router's proofs
need. `Decimal` renders integers the way `str` and `strftime` do, and reads
them back.

`get_weather` catches nothing. An unreachable provider, or a 200 answer
without the expected fields, raises, and the endpoint answers with a 500.
`Jarvis.GetWeather` and `Jarvis.AskAssistant` state exactly when that
happens. `generate_response`, by contrast, catches every failure of the
model and answers with an apology.

The page's script is modelled only as far as it reads a 200 response
object: it shows the "text" entry and opens the "url" entry of an
`open_url` action. `Jarvis.PageReads` is that reading.

## Model

| member | source | states |
|---|---|---|
| Jarvis.GenerateResponse | JARVIS.py:25-31 | A failing model gives the fixed "AI brain" apology and never raises. A model reply gives that reply with its whitespace stripped. |
| Jarvis.GetWeather | JARVIS.py:33-45 | With no weather key: the "not configured" apology and no provider request. With a key: exactly one request, for the city given. It raises exactly when the provider is unreachable or a 200 answer lacks the expected fields. With a key, every sentence it returns names the city. |
| Jarvis.WeatherSentence | JARVIS.py:43 | The success sentence is "The weather in ", the city, " is ", the description, " with a temperature of ", the temperature and "°C.". The ensures pin its length, the 15-character opening, the city after it, " is ", the description, " with a temperature of ", and the closing temperature with "°C.", which together fix the whole sentence. |
| Jarvis.WeatherFailure | JARVIS.py:45 | The failure sentence is "Sorry, I failed to retrieve weather data for ", the city and ".". The ensures pin its length, the 45-character opening, the city right after it and the final ".". |
| Jarvis.WeatherByStatus | JARVIS.py:39-45 | With a key, status 200 gives the description/temperature sentence and any other status gives the failure sentence. |
| Jarvis.SiteUrl | JARVIS.py:55-60 | youtube, google and wikipedia get their table addresses. Every other name gets `https://www.<name>.com`. The address is never empty. |
| Jarvis.SiteName | JARVIS.py:53 | The site name holds no upper-case letter. On a lower-cased message, the final `.lower()` changes nothing: the name is the message with every "open " removed and the ends stripped. |
| Jarvis.Route | JARVIS.py:51-74 | The branch decision, taken on the lower-cased text. It opens a site exactly when the text starts with "open ". It consults the model exactly when the text neither starts with "open " nor contains "weather". It gives the format hint exactly when the text does not start with "open ", contains "weather" but not "weather in". A city to look up is never empty and has no whitespace at its ends. |
| Jarvis.WeatherInMentionsWeather | JARVIS.py:68-71 | Text containing "weather in" contains "weather", so the bare-weather test can only fire once "weather in" has failed. |
| Jarvis.HandleMessage | JARVIS.py:47-74 | At most one backend request is made. Only a weather lookup can raise, after a request for the routed city. The reply is an open-URL command exactly when the lower-cased message starts with "open ", and its URL is never empty. |
| Jarvis.RouteFollowsPriority | JARVIS.py:51-74 | First match wins. The branch taken fires on the message, and no branch earlier in the order open, weather in, weather, fallback fires. |
| Jarvis.OpenCommand | JARVIS.py:51-66 | Any message starting with "open " after lower-casing gets an open-URL command and makes no backend request, whatever else it holds. The site name is the text after the prefix, with every further "open " removed and the ends stripped. The text is "Opening <site>..." and the URL comes from the table or the guess. |
| Jarvis.WeatherInCity | JARVIS.py:68-70 | For a non-open message, the city is the stripped text after the last "weather in". An empty city gets "Which city's weather?" and no lookup. Any other city gets the lookup's reply for that city. |
| Jarvis.RouteWeatherCity | JARVIS.py:68-70 | The routing decision behind `WeatherInCity`, taken on the lower-cased text alone. |
| Jarvis.BareWeatherHint | JARVIS.py:71-72 | "weather" without "weather in", in a non-open message, always gets the fixed format hint. No request is made. |
| Jarvis.FallbackSendsOriginal | JARVIS.py:73-74 | Any other message is sent to the model exactly once, as typed and not lower-cased. A failing model still produces the apology reply. |
| Jarvis.RoutingIsCaseInsensitive | JARVIS.py:48 | Two messages that lower-case to the same text get the same traced reply, requests included, unless the model is asked. Routing an already lower-cased message takes the same branch as routing the original. |
| Jarvis.ToBody | JARVIS.py:85-89 | A plain string becomes exactly the one-key object {"text": s}. A command is passed on as its three-key object: "text", "action" = "open_url" and "url" = its URL, with no other key. |
| Jarvis.ToBodyInjective | JARVIS.py:85-89 | Two different replies never give the same object, so a command and a plain string can always be told apart. |
| Jarvis.PageReads | templates/script.js:87-93 | The page opens a URL only for an `open_url` action, and never an empty one. It shows a text exactly when the object has a "text" entry. |
| Jarvis.BodyRoundTrip | templates/script.js:87-93 | For every reply the router can produce, the page does what the reply means. A plain string is shown and opens nothing. A command shows its text and opens its URL. |
| Jarvis.AskAssistant | JARVIS.py:78-89 | A missing or empty message gets the 400 "No message provided" object, without routing and without requests. Any other message makes exactly the router's requests. It gets a 500 exactly when routing raises. Otherwise it gets a 200 object: a command as it is, a string under "text". The page then does what the routed reply means. |
| JarvisExamples.OpenYouTube | JARVIS.py:51-66 | "open youtube", in any capitalisation, opens `https://www.youtube.com` with the text "Opening youtube...". |
| JarvisExamples.OpenRemovesEveryOpen | JARVIS.py:53 | "open open library" removes both occurrences of "open " and opens the guessed `https://www.library.com`. |
| JarvisExamples.ReplaceMakesOnePass | JARVIS.py:53 | `replace` makes a single pass: removing the "open " inside "opopen en " leaves a new "open " that stays. |
| JarvisExamples.OpenNothing | JARVIS.py:53-65 | A bare "open " opens the guess for the empty name, `https://www..com`. |
| JarvisExamples.WeatherInParis | JARVIS.py:68-70 | "weather in Paris" asks the provider about "paris" once. It answers with that city's sentence. |
| JarvisExamples.LowerOpenYouTube | JARVIS.py:48 | "Open YouTube" lower-cases to "open youtube". |
| JarvisExamples.LowerWeatherInParis | JARVIS.py:48 | "weather in Paris" lower-cases to "weather in paris". |
| JarvisExamples.SiteNameAfterOpen | JARVIS.py:53 | A repeated "open " in front of any word without "open " and without whitespace at its ends is removed too, leaving the word as the site name. |
| JarvisExamples.SiteNameOfWord | JARVIS.py:53 | A word without "open " and without whitespace at its ends is its own site name. |
| JarvisExamples.NoOpenIn | JARVIS.py:53 | A word without a blank holds no "open ". |
| DatetimeUtils.DateSuffix | datetime_utils.py:3-8 | For every day 1..31 the suffix is the English ordinal one, so 11, 12 and 13 take "th". The list lookup's IndexError is modelled for other integers. |
| DatetimeUtils.DateSuffixIndexInRange | datetime_utils.py:8 | A calendar day outside the two "th" ranges is 1, 2, 3, 21, 22, 23 or 31. Its list index `day % 10 - 1` lies in 0..2. |
| DatetimeUtils.DateSuffixTable | datetime_utils.py:5-8 | Over days 1..31: "st" exactly for 1, 21 and 31. "nd" exactly for 2 and 22. "rd" exactly for 3 and 23. "th" exactly for 4..20 and 24..30. |
| DatetimeUtils.PyIndex | datetime_utils.py:8 | A Python list index succeeds exactly when it lies between minus the length and the length. |
| DatetimeUtils.Hour12 | datetime_utils.py:19 | The `%I` hour lies in 1..12 and agrees with the 24-hour hour modulo 12. |
| DatetimeUtils.Meridiem | datetime_utils.py:19 | `%p` is "AM" exactly for the hours before noon, and "PM" otherwise. |
| DatetimeUtils.ClockText | datetime_utils.py:19 | `%I:%M %p` is always eight characters long. |
| DatetimeUtils.ClockTextRoundTrip | datetime_utils.py:19 | Reading the clock text back recovers the 24-hour hour and the minute. |
| DatetimeUtils.ClockHourTable | datetime_utils.py:19-20 | Hour 0 shows as 12 AM. Hours 1 to 11 show as themselves with AM. Hour 12 shows as 12 PM. Hours 13 to 23 show as the hour minus 12 with PM. The minute reads back unchanged. |
| DatetimeUtils.DateText | datetime_utils.py:25-27 | The date text is the month name, a space, the unpadded day with its English ordinal suffix, a comma and space, and the year. |
| DatetimeUtils.TimeReply | datetime_utils.py:19-20 | The time sentence is 29 characters: "The current time is ", the eight-character clock text, and a final ".". |
| DatetimeUtils.DateReply | datetime_utils.py:27-28 | The date sentence starts with "Today's date is " and ends with ".". |
| DatetimeUtils.DateTextExample30th | datetime_utils.py:27 | The 30th of September 2025 renders as "September 30th, 2025". |
| DatetimeUtils.DateTextExample21st | datetime_utils.py:25-27 | The 21st of September 2025 renders as "September 21st, 2025". |
| DatetimeUtils.HandleDatetimeMessage | datetime_utils.py:15-32 | The message is handled exactly when its lower-cased form contains "time" or "date". "time" wins and speaks the time, even when "date" is also present. "date" alone speaks the date. A handled message is spoken exactly once. An unhandled one is never spoken. |
| DatetimeUtils.TimeReplyReportsNow | datetime_utils.py:19-20 | The time sentence is "The current time is " followed by a clock text that reads back as the current hour and minute, then ".". |
| DatetimeUtils.DateReplyUsesOrdinal | datetime_utils.py:24-30 | The date sentence is "Today's date is <Month> <day><ordinal suffix>, <year>.". The day is unpadded. |
| PyStr.Lower | JARVIS.py:48 | `str.lower` keeps the length and lower-cases each character on its own, independently of its neighbours. |
| PyStr.LowerIdempotent | JARVIS.py:48 | Lower-casing twice is lower-casing once. |
| PyStr.LowerFixesNoUpper | JARVIS.py:53 | Lower-cased text holds no upper-case letter. Text with none is its own lower-cased form, so the second `.lower()` of the site name changes nothing. |
| PyStr.Strip | JARVIS.py:53 | `str.strip` removes only whitespace, and only from the two ends. The result starts and ends with a non-space. |
| PyStr.StripUnique | JARVIS.py:53 | Any string that is a slice of the input, with only whitespace around it and none at its ends, is the stripped result. |
| PyStr.StripIdempotent | JARVIS.py:69 | Stripping twice is stripping once. |
| PyStr.StartsWith | JARVIS.py:51 | `startswith` holds exactly when the prefix occurs at index 0. |
| PyStr.ContainsBounds | JARVIS.py:68-71 | For Python's `in`: the empty string is in every string, nothing longer than the text is in it, and a prefix of the text is in it. |
| PyStr.Find | JARVIS.py:53 | The left-to-right search for the first occurrence that `replace` performs here, and `split` at line 69. It finds something exactly when the substring occurs, and then at the first occurrence. |
| PyStr.LastPiece | JARVIS.py:69 | `split(sep)[-1]` is a suffix of the input that holds no separator. It is the whole input when no separator occurs. Otherwise it starts right after an occurrence of the separator. |
| PyStr.LastPieceUnique | JARVIS.py:69 | For a separator that cannot overlap itself: any split of the input into a prefix, the separator, and a separator-free rest makes that rest the last piece. |
| PyStr.RemoveAll | JARVIS.py:53 | `replace(pat, "")` never lengthens the text. It is the identity when the pattern is absent and shortens the text by at least the pattern's length otherwise. It adds no upper-case letter. What it keeps is stated by `RemoveAllFirst`. |
| PyStr.RemoveAllFirst | JARVIS.py:53 | `replace(pat, "")` keeps everything before the first occurrence, drops that occurrence, and goes on with the rest. With the identity on text that lacks the pattern, this fixes the result on every input. |
| PyStr.RemoveAllLeading | JARVIS.py:53 | A leading occurrence of the pattern is simply dropped before the rest is processed. |
| Decimal.NatToString | datetime_utils.py:27 | `str(n)` of a natural number is a non-empty string of digits. It is "0" for zero and otherwise has no leading zero. |
| Decimal.NatToStringRoundTrip | datetime_utils.py:27 | Reading `str(n)` back gives `n`. |
| Decimal.Pad2 | datetime_utils.py:19 | The `%I` and `%M` field is two digits that read back as the number. |

## Left out

- Flask, CORS, `.env` loading, the `genai.configure` set-up and the `home` template route: framework plumbing around the endpoint.
- The Gemini and OpenWeatherMap HTTP calls: they are oracle functions in `Backends`. The query parameters, the model name and the error logging are not modelled.
- The weather temperature is an opaque, already-formatted string. Python's float printing is not modelled.
- `voice_assistant.py` and `templates/` (the page and its script): microphone, speech synthesis and browser I/O. The page script's reading of a 200 response object appears only as `Jarvis.PageReads`. Its handling of error statuses is not modelled.
- The request body: only the value of its "message" field is modelled, as a string that is either present or absent. A body that is not JSON, and a "message" that is a non-string value (a falsy `0`, `[]` or `false` also gets the 400, and a truthy one makes `.lower()` raise), are not modelled.
- JSON serialisation and the response headers: a response body is a map from keys to strings.
- `datetime.datetime.now()` is the `Instant` parameter. `strftime` uses its C-locale month names and AM/PM. Other locales are not modelled.
- PyStr.RemoveAll: its own ensures bound only the length and keep the identity on text without the pattern. Which characters remain is stated separately by the lemma `PyStr.RemoveAllFirst`, which keeps the recursive function's contract small.
- PyStr.Lower: lower-cases ASCII letters only. Python's `str.lower` also lower-cases other alphabets, and can change the length for a few characters, such as U+0130. The routing keywords are ASCII, so routing decisions on ASCII text are exact.
- DatetimeUtils.DateText: accepts any day from 1 to 31 in any month. Which days each month really has comes from `datetime` and is not modelled.
- DatetimeUtils.DateText: prints years below 1000 without padding, as glibc's `%Y` does. Other C libraries pad them to four digits.
- The router has no other handlers, and the model adds none.

=== FILE: datetime_utils.dfy ===
/** The date/time responder: the ordinal suffix of a day of the month, the
    12-hour clock text, the date text, and the routine that answers a
    "time" or "date" message through a `speak` callback. The current instant
    is a parameter and the `speak` calls are returned as the list of texts
    spoken. */
module DatetimeUtils {
  import opened Optional
  import opened PyStr
  import opened Decimal

  // ---------------------------------------------------------------------
  // Day suffix
  // ---------------------------------------------------------------------

  /** Python's `xs[i]` on a list: a negative index counts from the end; any
      other index out of range raises IndexError, modelled as None. */
  function PyIndex<T>(xs: seq<T>, i: int): (r: Option<T>)
    ensures r.Some? <==> -|xs| <= i < |xs|
  {
    if 0 <= i < |xs| then Some(xs[i])
    else if -|xs| <= i < 0 then Some(xs[|xs| + i])
    else None
  }

  /** The English ordinal suffix of a positive number: "th" when the tens
      digit is 1 (11th, 12th, 13th, 111th), otherwise "st", "nd" or "rd" for
      a last digit of 1, 2 or 3, and "th" for the rest. */
  function OrdinalSuffix(n: nat): string {
    if (n / 10) % 10 == 1 then "th"
    else if n % 10 == 1 then "st"
    else if n % 10 == 2 then "nd"
    else if n % 10 == 3 then "rd"
    else "th"
  }

  /** `get_date_suffix(day)`. None stands for the IndexError the list lookup
      raises when `day % 10 - 1` is out of range. Python's `%` floors while
      Dafny's is Euclidean; the two agree for the positive divisor 10. For
      every day a month can have, the suffix is the English ordinal one. */
  function DateSuffix(day: int): (r: Option<string>)
    ensures 1 <= day <= 31 ==> r == Some(OrdinalSuffix(day))
  {
    if 4 <= day <= 20 || 24 <= day <= 30 then Some("th")
    else PyIndex(["st", "nd", "rd"], day % 10 - 1)
  }

  /** Outside the two "th" ranges, a calendar day indexes the three-entry list
      within bounds: only days 1, 2, 3, 21, 22, 23 and 31 get there. */
  lemma DateSuffixIndexInRange(day: int)
    requires 1 <= day <= 31 && !(4 <= day <= 20 || 24 <= day <= 30)
    ensures 0 <= day % 10 - 1 <= 2
    ensures day in {1, 2, 3, 21, 22, 23, 31}
  {
  }

  /** The suffix of every calendar day, spelled out as a table. */
  lemma DateSuffixTable(day: int)
    requires 1 <= day <= 31
    ensures DateSuffix(day) == Some("st") <==> day in {1, 21, 31}
    ensures DateSuffix(day) == Some("nd") <==> day in {2, 22}
    ensures DateSuffix(day) == Some("rd") <==> day in {3, 23}
    ensures DateSuffix(day) == Some("th") <==> (4 <= day <= 20 || 24 <= day <= 30)
  {
  }

  // ---------------------------------------------------------------------
  // Clock and calendar text
  // ---------------------------------------------------------------------

  /** The fields of `datetime.datetime.now()` the responder reads. */
  datatype Instant = Instant(year: int, month: int, day: int, hour: int, minute: int)

  /** The ranges `datetime` guarantees for those fields. */
  predicate ValidInstant(t: Instant) {
    && 1 <= t.year <= 9999
    && 1 <= t.month <= 12
    && 1 <= t.day <= 31
    && 0 <= t.hour <= 23
    && 0 <= t.minute <= 59
  }

  /** `%B` in the C locale. */
  const MonthNames: seq<string> := [
    "January", "February", "March", "April", "May", "June", "July",
    "August", "September", "October", "November", "December"
  ]

  /** `%I`: the hour on a 12-hour clock, 12 standing for 0. */
  function Hour12(hour: int): (h: int)
    requires 0 <= hour <= 23
    ensures 1 <= h <= 12 && h % 12 == hour % 12
  {
    if hour % 12 == 0 then 12 else hour % 12
  }

  /** `%p` in the C locale: "AM" for the hours before noon, "PM" from noon
      on. */
  function Meridiem(hour: int): (r: string)
    ensures r == "AM" || r == "PM"
    ensures r == "AM" <==> hour < 12
  {
    if hour < 12 then "AM" else "PM"
  }

  /** `strftime("%I:%M %p")`, as in "01:22 PM". */
  function ClockText(hour: int, minute: int): (r: string)
    requires 0 <= hour <= 23 && 0 <= minute <= 59
    ensures |r| == 8
  {
    Pad2(Hour12(hour)) + ":" + Pad2(minute) + " " + Meridiem(hour)
  }

  /** Reads "hh:mm AM" or "hh:mm PM" back as a 24-hour hour and a minute. */
  function ParseClock(s: string): Option<(int, int)> {
    if |s| == 8 && AllDigits(s[0..2]) && s[2] == ':' && AllDigits(s[3..5]) && s[5] == ' '
       && (s[6..] == "AM" || s[6..] == "PM")
    then
      var h := ParseDigits(s[0..2]);
      var m := ParseDigits(s[3..5]);
      if 1 <= h <= 12 && m <= 59 then Some((h % 12 + (if s[6..] == "PM" then 12 else 0), m))
      else None
    else None
  }

  /** The clock text names the hour and minute it was made from: reading it
      back recovers both. */
  lemma ClockTextRoundTrip(hour: int, minute: int)
    requires 0 <= hour <= 23 && 0 <= minute <= 59
    ensures ParseClock(ClockText(hour, minute)) == Some((hour, minute))
  {
    var s := ClockText(hour, minute);
    assert s[0..2] == Pad2(Hour12(hour));
    assert s[3..5] == Pad2(minute);
    assert s[6..] == Meridiem(hour);
  }

  /** How each hour of the day shows on the 12-hour clock: midnight's hour as
      "12 AM", 1 to 11 as themselves with "AM", noon as "12 PM" and 13 to 23
      as the hour minus 12 with "PM". */
  lemma ClockHourTable(hour: int, minute: int)
    requires 0 <= hour <= 23 && 0 <= minute <= 59
    ensures hour == 0 ==> ClockText(hour, minute)[..2] == "12" && ClockText(hour, minute)[6..] == "AM"
    ensures 1 <= hour <= 11 ==> ParseDigits(ClockText(hour, minute)[..2]) == hour && ClockText(hour, minute)[6..] == "AM"
    ensures hour == 12 ==> ClockText(hour, minute)[..2] == "12" && ClockText(hour, minute)[6..] == "PM"
    ensures 13 <= hour ==> ParseDigits(ClockText(hour, minute)[..2]) == hour - 12 && ClockText(hour, minute)[6..] == "PM"
    ensures ParseDigits(ClockText(hour, minute)[3..5]) == minute
  {
    var s := ClockText(hour, minute);
    assert s[..2] == Pad2(Hour12(hour));
    assert s[3..5] == Pad2(minute);
    assert s[6..] == Meridiem(hour);
  }

  /** `strftime(f"%B {day}{suffix}, %Y")`: the month name, the unpadded day
      with its suffix, and the year (unpadded, as glibc prints `%Y`). The
      suffix is always the day's English ordinal one. */
  function DateText(t: Instant): (r: string)
    requires ValidInstant(t)
    ensures r == MonthNames[t.month - 1] + " " + NatToString(t.day) + OrdinalSuffix(t.day)
      + ", " + NatToString(t.year)
  {
    MonthNames[t.month - 1] + " " + NatToString(t.day) + DateSuffix(t.day).value
      + ", " + NatToString(t.year)
  }

  /** `str(2025)`, the year of the examples below. */
  lemma Year2025()
    ensures NatToString(2025) == "2025"
  {
    assert NatToString(20) == "20";
    assert NatToString(202) == "202";
  }

  /** The date the responder's own comment gives as its example. */
  lemma DateTextExample30th()
    ensures DateText(Instant(2025, 9, 30, 0, 0)) == "September 30th, 2025"
  {
    Year2025();
    assert MonthNames[8] == "September";
    assert NatToString(30) == "30" && DateSuffix(30) == Some("th");
  }

  /** A "st" day past the first ten. */
  lemma DateTextExample21st()
    ensures DateText(Instant(2025, 9, 21, 0, 0)) == "September 21st, 2025"
  {
    Year2025();
    assert MonthNames[8] == "September";
    assert NatToString(21) == "21" && DateSuffix(21) == Some("st");
  }

  // ---------------------------------------------------------------------
  // The responder
  // ---------------------------------------------------------------------

  /** The sentence spoken for "time": a fixed frame around the clock
      text. */
  function TimeReply(now: Instant): (r: string)
    requires ValidInstant(now)
    ensures |r| == 29 && r[..20] == "The current time is " && r[28] == '.'
  {
    "The current time is " + ClockText(now.hour, now.minute) + "."
  }

  /** The sentence spoken for "date": a fixed frame around the date
      text. */
  function DateReply(now: Instant): (r: string)
    requires ValidInstant(now)
    ensures |r| > 17 && r[..16] == "Today's date is " && r[|r| - 1] == '.'
  {
    "Today's date is " + DateText(now) + "."
  }

  /** What `handle_datetime_message` returns, with the texts it passed to
      `speak`, in order. */
  datatype DatetimeReply = DatetimeReply(handled: bool, spoken: seq<string>)

  /** `handle_datetime_message(message, speak)` at instant `now`. A message
      mentioning "time" (anywhere, any case) gets the time, even if it also
      mentions "date"; one mentioning only "date" gets the date; anything
      else is left unhandled. A handled message is spoken exactly once, an
      unhandled one not at all. */
  function HandleDatetimeMessage(message: string, now: Instant): (r: DatetimeReply)
    requires ValidInstant(now)
    ensures r.handled <==> Contains(Lower(message), "time") || Contains(Lower(message), "date")
    ensures r.handled ==> |r.spoken| == 1
    ensures !r.handled ==> r.spoken == []
    ensures Contains(Lower(message), "time") ==> r.spoken == [TimeReply(now)]
    ensures !Contains(Lower(message), "time") && Contains(Lower(message), "date") ==> r.spoken == [DateReply(now)]
  {
    var lower := Lower(message);
    if Contains(lower, "time") then DatetimeReply(true, [TimeReply(now)])
    else if Contains(lower, "date") then DatetimeReply(true, [DateReply(now)])
    else DatetimeReply(false, [])
  }

  /** The spoken time reads back as the current hour and minute. */
  lemma TimeReplyReportsNow(now: Instant)
    requires ValidInstant(now)
    ensures |TimeReply(now)| == 29
    ensures TimeReply(now)[..20] == "The current time is "
    ensures TimeReply(now)[28] == '.'
    ensures ParseClock(TimeReply(now)[20..28]) == Some((now.hour, now.minute))
  {
    assert TimeReply(now)[20..28] == ClockText(now.hour, now.minute);
    ClockTextRoundTrip(now.hour, now.minute);
  }

  /** The spoken date carries the day's English ordinal. */
  lemma DateReplyUsesOrdinal(now: Instant)
    requires ValidInstant(now)
    ensures DateReply(now) == "Today's date is " + MonthNames[now.month - 1] + " "
      + NatToString(now.day) + OrdinalSuffix(now.day) + ", " + NatToString(now.year) + "."
  {
  }
}

=== FILE: decimal.dfy ===
/** Decimal rendering of non-negative integers: Python's `str(n)` and the
    zero-padded two-digit fields `strftime` prints, with the parse that reads
    them back. */
module Decimal {

  predicate IsDigit(c: char) {
    '0' <= c <= '9'
  }

  predicate AllDigits(s: string) {
    forall k :: 0 <= k < |s| ==> IsDigit(s[k])
  }

  /** The value of a decimal digit character. */
  function DigitValue(c: char): (d: int)
    ensures IsDigit(c) ==> 0 <= d <= 9
  {
    c as int - '0' as int
  }

  /** The character of a decimal digit. */
  function DigitChar(d: int): (c: char)
    requires 0 <= d <= 9
    ensures IsDigit(c) && DigitValue(c) == d
  {
    ('0' as int + d) as char
  }

  /** The number a string of decimal digits denotes (the empty string
      denotes 0). */
  function ParseDigits(s: string): (n: nat)
    requires AllDigits(s)
    decreases |s|
  {
    if s == [] then 0 else ParseDigits(s[..|s| - 1]) * 10 + DigitValue(s[|s| - 1])
  }

  /** `str(n)` for `n >= 0`: at least one digit and no leading zero. */
  function NatToString(n: nat): (r: string)
    ensures |r| >= 1 && AllDigits(r)
    ensures r[0] == '0' ==> n == 0
    ensures n == 0 ==> r == "0"
    decreases n
  {
    if n < 10 then [DigitChar(n)] else NatToString(n / 10) + [DigitChar(n % 10)]
  }

  /** Reading `str(n)` back gives `n`: the rendering loses nothing. */
  lemma {:induction false} NatToStringRoundTrip(n: nat)
    ensures ParseDigits(NatToString(n)) == n
  {
    var r := NatToString(n);
    if n < 10 {
      assert r[..|r| - 1] == [];
    } else {
      assert r[..|r| - 1] == NatToString(n / 10);
      NatToStringRoundTrip(n / 10);
    }
  }

  /** The two-digit zero-padded field of `%I`, `%M` and friends. */
  function Pad2(n: int): (r: string)
    requires 0 <= n <= 99
    ensures |r| == 2 && AllDigits(r) && ParseDigits(r) == n
  {
    var r := [DigitChar(n / 10), DigitChar(n % 10)];
    assert ParseDigits(r[..1]) == n / 10 by {
      assert r[..1][..0] == [];
    }
    r
  }
}

=== FILE: jarvis.dfy ===
/** The text endpoint of the assistant: `handle_message`, which routes one
    message by a first-match-wins chain over its lower-cased text, the two
    backends it may call (`get_weather`, `generate_response`) and
    `ask_assistant`, which turns the routed reply into the JSON response.

    The generative model and the weather provider are oracles in a
    `Backends` record; every handler returns, next to its result, the list of
    requests it made of them, so that "no lookup happens" and "the generator
    sees the original message" can be stated. */
module Jarvis {
  import opened Optional
  import opened PyStr

  // ---------------------------------------------------------------------
  // Backends
  // ---------------------------------------------------------------------

  /** What the generative model gives back for one prompt: its text, or a
      failure (any exception raised by the client library). */
  datatype GenReply = Generated(text: string) | GenerationFailed

  /** The two fields read from a successful weather response; the temperature
      is the provider's number already rendered as Python prints it. */
  datatype WeatherReport = WeatherReport(description: string, temperature: string)

  /** What the weather provider gives back: no answer at all (the HTTP
      client raises), or a status code with, when the body has the expected
      fields, the report they hold. */
  datatype ProviderReply =
    | Unreachable
    | Responded(status: int, report: Option<WeatherReport>)

  /** The configuration and the external services the endpoint talks to. */
  datatype Backends = Backends(
    weatherKeyConfigured: bool,
    generate: string -> GenReply,
    weather: string -> ProviderReply)

  /** One request made of an external service. */
  datatype BackendCall = GenerateCall(prompt: string) | WeatherCall(city: string)

  /** A Python evaluation: a value, or an exception nothing here catches. */
  datatype Outcome<+T> = Returned(value: T) | Raised

  /** A result together with the backend requests made to compute it. */
  datatype Traced<+T> = Traced(outcome: Outcome<T>, calls: seq<BackendCall>)

  // ---------------------------------------------------------------------
  // generate_response
  // ---------------------------------------------------------------------

  const AiBrainApology := "Sorry, I had an issue connecting to my AI brain."

  /** `generate_response`: the model's text, stripped, or a fixed apology
      when the model fails. It never raises. */
  function GenerateResponse(reply: GenReply): (r: string)
    ensures reply.GenerationFailed? ==> r == AiBrainApology
    ensures reply.Generated? ==> StripsTo(reply.text, r)
  {
    match reply
    case Generated(text) => Strip(text)
    case GenerationFailed => AiBrainApology
  }

  // ---------------------------------------------------------------------
  // get_weather
  // ---------------------------------------------------------------------

  const WeatherNotConfigured := "Sorry, my weather API key is not configured."

  /** The sentence for a successful lookup: "The weather in ", the city,
      " is ", the description, " with a temperature of ", the temperature
      and "\U{B0}C.". */
  function WeatherSentence(city: string, w: WeatherReport): (r: string)
    ensures |r| == 45 + |city| + |w.description| + |w.temperature|
    ensures r[..15] == "The weather in " && OccursAt(r, city, 15)
    ensures r[15 + |city|..19 + |city|] == " is "
    ensures OccursAt(r, w.description, 19 + |city|)
    ensures r[19 + |city| + |w.description|..42 + |city| + |w.description|] == " with a temperature of "
    ensures IsSuffix(w.temperature + "\U{B0}C.", r)
    ensures Contains(r, city)
  {
    var tail := " is " + w.description + " with a temperature of " + w.temperature + "\U{B0}C.";
    var r := "The weather in " + city + tail;
    ContainsMiddle("The weather in ", city, tail);
    assert r[15..15 + |city|] == city;
    assert r[19 + |city|..19 + |city| + |w.description|] == w.description;
    r
  }

  /** The sentence for a lookup whose status is not 200: "Sorry, I failed
      to retrieve weather data for ", the city and ".". */
  function WeatherFailure(city: string): (r: string)
    ensures |r| == 46 + |city|
    ensures r[..45] == "Sorry, I failed to retrieve weather data for " && OccursAt(r, city, 45)
    ensures r[|r| - 1] == '.'
    ensures Contains(r, city)
  {
    var r := "Sorry, I failed to retrieve weather data for " + city + ".";
    ContainsMiddle("Sorry, I failed to retrieve weather data for ", city, ".");
    assert r[45..45 + |city|] == city;
    r
  }

  /** `get_weather(city)`. Without a weather key it apologises and asks
      nothing of the provider; otherwise it makes exactly one request. A
      status of 200 gives the description/temperature sentence, any other
      status the failure sentence; both name the city. The function catches
      nothing: an unreachable provider or a 200 body without the expected
      fields raises. */
  function GetWeather(city: string, bk: Backends): (r: Traced<string>)
    ensures !bk.weatherKeyConfigured ==> r == Traced(Returned(WeatherNotConfigured), [])
    ensures bk.weatherKeyConfigured ==> r.calls == [WeatherCall(city)]
    ensures r.outcome.Raised? <==>
      bk.weatherKeyConfigured
      && (bk.weather(city).Unreachable?
          || (bk.weather(city).status == 200 && bk.weather(city).report.None?))
    ensures bk.weatherKeyConfigured && r.outcome.Returned? ==> Contains(r.outcome.value, city)
  {
    if !bk.weatherKeyConfigured then Traced(Returned(WeatherNotConfigured), [])
    else
      var calls := [WeatherCall(city)];
      match bk.weather(city)
      case Unreachable => Traced(Raised, calls)
      case Responded(status, report) =>
        if status == 200 then
          match report
          case None => Traced(Raised, calls)
          case Some(w) => Traced(Returned(WeatherSentence(city, w)), calls)
        else
          Traced(Returned(WeatherFailure(city)), calls)
  }

  /** With a key configured, the status alone picks the sentence. */
  lemma WeatherByStatus(city: string, bk: Backends, status: int, w: WeatherReport)
    requires bk.weatherKeyConfigured
    ensures bk.weather(city) == Responded(status, Some(w)) && status == 200 ==>
      GetWeather(city, bk).outcome == Returned(WeatherSentence(city, w))
    ensures bk.weather(city).Responded? && bk.weather(city).status != 200 ==>
      GetWeather(city, bk).outcome == Returned(WeatherFailure(city))
  {
  }

  // ---------------------------------------------------------------------
  // handle_message
  // ---------------------------------------------------------------------

  /** What `handle_message` returns: the command dictionary of an "open"
      message, or a plain string. */
  datatype Reply = Say(text: string) | OpenUrl(text: string, url: string)

  /** The branch `handle_message` picks, with what it extracted. */
  datatype Intent =
    | OpenSite(site: string)
    | LookUpWeather(city: string)
    | AskWhichCity
    | AskWeatherFormat
    | Chat

  const OpenTrigger := "open "
  const WeatherInTrigger := "weather in"
  const WeatherTrigger := "weather"

  const WhichCity := "Which city's weather?"
  const WeatherFormatHint := "Of course. Please ask again using the format: 'weather in {city name}'."

  /** The three sites with a known address. */
  const Sites: map<string, string> := map[
    "youtube" := "https://www.youtube.com",
    "google" := "https://www.google.com",
    "wikipedia" := "https://www.wikipedia.org"
  ]

  /** The address opened for a site name: the table's entry, or a guess at
      `https://www.<name>.com`. */
  function SiteUrl(site: string): (url: string)
    ensures site in Sites ==> url == Sites[site]
    ensures site !in Sites ==> url == "https://www." + site + ".com"
    ensures url != ""
  {
    if site in Sites then Sites[site] else "https://www." + site + ".com"
  }

  /** The site name of an "open" message: every "open " removed, the rest
      stripped and lower-cased. On an already lower-cased message the final
      lower-casing changes nothing. */
  function SiteName(lower: string): (r: string)
    ensures NoUpper(r)
    ensures NoUpper(lower) ==> r == Strip(RemoveAll(lower, OpenTrigger))
  {
    var x := RemoveAll(lower, OpenTrigger);
    LowerFixesNoUpper(Strip(x));
    assert NoUpper(lower) ==> NoUpper(Strip(x)) by {
      if NoUpper(lower) {
        StripKeepsNoUpper(x);
      }
    }
    Lower(Strip(x))
  }

  /** The routing decision, made on the lower-cased message alone. The
      model is consulted exactly when the message neither starts with
      "open " nor mentions "weather" anywhere; a looked-up city is never
      empty and carries no leading or trailing whitespace. */
  function Route(lower: string): (r: Intent)
    ensures r.OpenSite? <==> StartsWith(lower, OpenTrigger)
    ensures r == Chat <==> !StartsWith(lower, OpenTrigger) && !Contains(lower, WeatherTrigger)
    ensures r == AskWeatherFormat <==>
      !StartsWith(lower, OpenTrigger) && !Contains(lower, WeatherInTrigger) && Contains(lower, WeatherTrigger)
    ensures r.LookUpWeather? ==> r.city != [] && Strip(r.city) == r.city
  {
    WeatherInMentionsWeather(lower);
    var city := Strip(LastPiece(lower, WeatherInTrigger));
    StripIdempotent(LastPiece(lower, WeatherInTrigger));
    if StartsWith(lower, OpenTrigger) then OpenSite(SiteName(lower))
    else if Contains(lower, WeatherInTrigger) then
      if city == "" then AskWhichCity else LookUpWeather(city)
    else if Contains(lower, WeatherTrigger) then AskWeatherFormat
    else Chat
  }

  /** Whatever mentions "weather in" mentions "weather". */
  lemma WeatherInMentionsWeather(lower: string)
    ensures Contains(lower, WeatherInTrigger) ==> Contains(lower, WeatherTrigger)
  {
    if Contains(lower, WeatherInTrigger) {
      ContainsPrefixOfNeedle(lower, WeatherInTrigger, WeatherTrigger);
    }
  }

  /** A traced string answer as a plain-string reply. */
  function SayTraced(t: Traced<string>): (r: Traced<Reply>)
    ensures r.calls == t.calls
    ensures r.outcome.Raised? <==> t.outcome.Raised?
  {
    match t.outcome
    case Returned(text) => Traced(Returned(Say(text)), t.calls)
    case Raised => Traced(Raised, t.calls)
  }

  /** `handle_message(message)`. At most one backend request is made, and
      only a weather lookup can raise. A message is answered with an
      open-URL command exactly when its lower-cased form starts with
      "open ". */
  function HandleMessage(message: string, bk: Backends): (r: Traced<Reply>)
    ensures |r.calls| <= 1
    ensures r.outcome.Raised? ==>
      Route(Lower(message)).LookUpWeather? && r.calls == [WeatherCall(Route(Lower(message)).city)]
    ensures (r.outcome.Returned? && r.outcome.value.OpenUrl?) <==> StartsWith(Lower(message), OpenTrigger)
    ensures r.outcome.Returned? && r.outcome.value.OpenUrl? ==> r.outcome.value.url != ""
  {
    match Route(Lower(message))
    case OpenSite(site) => Traced(Returned(OpenUrl("Opening " + site + "...", SiteUrl(site))), [])
    case LookUpWeather(city) =>
      SayTraced(GetWeather(city, bk))
    case AskWhichCity => Traced(Returned(Say(WhichCity)), [])
    case AskWeatherFormat => Traced(Returned(Say(WeatherFormatHint)), [])
    case Chat => Traced(Returned(Say(GenerateResponse(bk.generate(message)))), [GenerateCall(message)])
  }

  // ---------------------------------------------------------------------
  // Routing properties
  // ---------------------------------------------------------------------

  /** The branches of the chain, each with the test that makes it fire. */
  datatype Branch = OpenBranch | WeatherInBranch | WeatherBranch | FallbackBranch

  /** The order the chain tries the branches in. */
  const Priority: seq<Branch> := [OpenBranch, WeatherInBranch, WeatherBranch, FallbackBranch]

  predicate Fires(b: Branch, lower: string) {
    match b
    case OpenBranch => StartsWith(lower, OpenTrigger)
    case WeatherInBranch => Contains(lower, WeatherInTrigger)
    case WeatherBranch => Contains(lower, WeatherTrigger)
    case FallbackBranch => true
  }

  function BranchOf(i: Intent): Branch {
    match i
    case OpenSite(_) => OpenBranch
    case LookUpWeather(_) => WeatherInBranch
    case AskWhichCity => WeatherInBranch
    case AskWeatherFormat => WeatherBranch
    case Chat => FallbackBranch
  }

  function Rank(b: Branch): nat {
    match b
    case OpenBranch => 0
    case WeatherInBranch => 1
    case WeatherBranch => 2
    case FallbackBranch => 3
  }

  /** First match wins: the branch taken fires, and no branch before it in
      the priority order does. */
  lemma RouteFollowsPriority(lower: string)
    ensures Priority[Rank(BranchOf(Route(lower)))] == BranchOf(Route(lower))
    ensures Fires(BranchOf(Route(lower)), lower)
    ensures forall k :: 0 <= k < Rank(BranchOf(Route(lower))) ==> !Fires(Priority[k], lower)
  {
    assert Priority[0] == OpenBranch && Priority[1] == WeatherInBranch;
    assert Priority[2] == WeatherBranch && Priority[3] == FallbackBranch;
    var open := StartsWith(lower, OpenTrigger);
    var weatherIn := Contains(lower, WeatherInTrigger);
    var weather := Contains(lower, WeatherTrigger);
    var b := BranchOf(Route(lower));
    if open {
      assert b == OpenBranch;
    } else if weatherIn {
      assert b == WeatherInBranch;
    } else if weather {
      assert b == WeatherBranch;
    } else {
      assert b == FallbackBranch;
    }
  }

  /** "weather in" never overlaps itself, so its last occurrence is
      well defined. */
  lemma WeatherInNoSelfOverlap()
    ensures NoSelfOverlap(WeatherInTrigger)
  {
    forall d | 0 < d < |WeatherInTrigger|
      ensures WeatherInTrigger[d..] != WeatherInTrigger[..|WeatherInTrigger| - d]
    {
      assert WeatherInTrigger[..|WeatherInTrigger| - d][0] == 'w';
      assert WeatherInTrigger[d..][0] != 'w';
    }
  }

  /** An "open " message yields an open-URL command and makes no backend
      request, whatever else it mentions ("weather" included). The site
      name is what follows the leading "open ", with every further "open "
      removed and the ends stripped; the URL is the table entry or the
      `.com` guess. */
  lemma OpenCommand(message: string, bk: Backends)
    requires StartsWith(Lower(message), OpenTrigger)
    ensures var site := Strip(RemoveAll(Lower(message)[|OpenTrigger|..], OpenTrigger));
      HandleMessage(message, bk) == Traced(Returned(OpenUrl("Opening " + site + "...", SiteUrl(site))), [])
  {
    var lower := Lower(message);
    assert lower == OpenTrigger + lower[|OpenTrigger|..];
    RemoveAllLeading(OpenTrigger, lower[|OpenTrigger|..]);
    LowerFixesNoUpper(message);
    var x := RemoveAll(lower, OpenTrigger);
    StripKeepsNoUpper(x);
    LowerFixesNoUpper(Strip(x));
  }

  /** A non-"open" message with "weather in": the city is the stripped text
      after the last "weather in". An empty city gets the question back and
      no lookup; otherwise the reply is `get_weather`'s for that city. */
  lemma WeatherInCity(message: string, bk: Backends, pre: string, raw: string)
    requires !StartsWith(Lower(message), OpenTrigger)
    requires Lower(message) == pre + WeatherInTrigger + raw && !Contains(raw, WeatherInTrigger)
    ensures Strip(raw) == "" ==> HandleMessage(message, bk) == Traced(Returned(Say(WhichCity)), [])
    ensures Strip(raw) != "" ==> HandleMessage(message, bk) == SayTraced(GetWeather(Strip(raw), bk))
  {
    RouteWeatherCity(Lower(message), pre, raw);
  }

  /** The routing half of `WeatherInCity`. */
  lemma RouteWeatherCity(lower: string, pre: string, raw: string)
    requires !StartsWith(lower, OpenTrigger)
    requires lower == pre + WeatherInTrigger + raw && !Contains(raw, WeatherInTrigger)
    ensures Route(lower) == (if Strip(raw) == "" then AskWhichCity else LookUpWeather(Strip(raw)))
  {
    ContainsMiddle(pre, WeatherInTrigger, raw);
    WeatherInNoSelfOverlap();
    LastPieceUnique(lower, WeatherInTrigger, pre, raw);
  }

  /** "weather" without "weather in" (and no "open ") always gets the
      format hint, with no lookup and no model call. */
  lemma BareWeatherHint(message: string, bk: Backends)
    requires !StartsWith(Lower(message), OpenTrigger)
    requires Contains(Lower(message), WeatherTrigger) && !Contains(Lower(message), WeatherInTrigger)
    ensures HandleMessage(message, bk) == Traced(Returned(Say(WeatherFormatHint)), [])
  {
  }

  /** Everything else goes to the model, which is handed the message as
      typed, not its lower-cased copy; a failing model still yields a reply. */
  lemma FallbackSendsOriginal(message: string, bk: Backends)
    requires !StartsWith(Lower(message), OpenTrigger) && !Contains(Lower(message), WeatherTrigger)
    ensures HandleMessage(message, bk).calls == [GenerateCall(message)]
    ensures HandleMessage(message, bk).outcome == Returned(Say(GenerateResponse(bk.generate(message))))
    ensures bk.generate(message).GenerationFailed? ==>
      HandleMessage(message, bk).outcome == Returned(Say(AiBrainApology))
  {
    if Contains(Lower(message), WeatherInTrigger) {
      ContainsPrefixOfNeedle(Lower(message), WeatherInTrigger, WeatherTrigger);
      assert false;
    }
  }

  /** Routing looks only at the lower-cased message: two messages that lower
      to the same text take the same branch with the same extracted site or
      city, and get the same reply unless the model is asked. A message and
      its lower-cased copy are one such pair. */
  lemma RoutingIsCaseInsensitive(a: string, b: string, bk: Backends)
    requires Lower(a) == Lower(b)
    ensures Route(Lower(a)) != Chat ==> HandleMessage(a, bk) == HandleMessage(b, bk)
    ensures Route(Lower(Lower(a))) == Route(Lower(a))
  {
    LowerIdempotent(a);
  }

  // ---------------------------------------------------------------------
  // ask_assistant
  // ---------------------------------------------------------------------

  /** The HTTP response: a JSON object with a status, or the 500 the
      framework sends when the handler raises. */
  datatype HttpResponse =
    | JsonResponse(status: int, body: map<string, string>)
    | InternalServerError

  /** A response together with the backend requests made to produce it. */
  datatype Exchange = Exchange(response: HttpResponse, calls: seq<BackendCall>)

  const NoMessage := "No message provided"

  /** The JSON object for a reply: a command dictionary as it is, a plain
      string under "text". */
  function ToBody(reply: Reply): (body: map<string, string>)
    ensures "text" in body && body["text"] == reply.text
    ensures "action" in body <==> reply.OpenUrl?
    ensures body.Keys == if reply.OpenUrl? then {"text", "action", "url"} else {"text"}
    ensures reply.OpenUrl? ==> body["action"] == "open_url" && body["url"] == reply.url
  {
    match reply
    case Say(text) => map["text" := text]
    case OpenUrl(text, url) => map["text" := text, "action" := "open_url", "url" := url]
  }

  /** Two different replies never give the same object. */
  lemma ToBodyInjective(a: Reply, b: Reply)
    ensures ToBody(a) == ToBody(b) ==> a == b
  {
    if ToBody(a) == ToBody(b) {
      if a.OpenUrl? {
        assert b.OpenUrl? && ToBody(a)["url"] == a.url;
      } else {
        assert !b.OpenUrl? by {
          assert "action" !in ToBody(a);
        }
      }
    }
  }

  /** What the page does with a 200 response object: it shows (and speaks)
      the "text" entry, absent when the object has none, and opens the "url"
      entry when "action" is "open_url" and the URL is not empty. */
  datatype PageEffect = PageEffect(shows: Option<string>, opens: Option<string>)

  /** The page script's reading of a response object. */
  function PageReads(body: map<string, string>): (e: PageEffect)
    ensures e.opens.Some? ==> "action" in body && body["action"] == "open_url"
    ensures e.opens.Some? ==> e.opens.value != ""
    ensures e.shows.Some? <==> "text" in body
  {
    var opens :=
      if "action" in body && body["action"] == "open_url" && "url" in body && body["url"] != ""
      then Some(body["url"]) else None;
    var shows := if "text" in body then Some(body["text"]) else None;
    PageEffect(shows, opens)
  }

  /** What a reply is meant to do on the page: show its text and, for a
      command, open its URL. */
  function Intended(reply: Reply): PageEffect {
    match reply
    case Say(text) => PageEffect(Some(text), None)
    case OpenUrl(text, url) => PageEffect(Some(text), Some(url))
  }

  /** The page does what every reply the router can produce is meant to do:
      a plain string is shown and opens nothing, a command is shown and its
      (never empty) URL opened. */
  lemma BodyRoundTrip(reply: Reply)
    requires reply.OpenUrl? ==> reply.url != ""
    ensures PageReads(ToBody(reply)) == Intended(reply)
  {
    var body := ToBody(reply);
    if reply.Say? {
      assert "action" !in body;
    }
  }

  /** `ask_assistant` given the request's "message" field (None when it is
      absent). A missing or empty message is answered with a 400 error object
      without routing it. Otherwise the routed reply is sent with status 200
      as its object (a command as it is, a string under "text"), which makes
      the page do what the reply means; the backend requests are the ones
      routing made, and a raising handler becomes a 500. */
  function AskAssistant(field: Option<string>, bk: Backends): (r: Exchange)
    ensures (field.None? || field.value == "") ==>
      r == Exchange(JsonResponse(400, map["error" := NoMessage]), [])
    ensures field.Some? && field.value != "" ==> r.calls == HandleMessage(field.value, bk).calls
    ensures field.Some? && field.value != "" ==>
      (r.response.InternalServerError? <==> HandleMessage(field.value, bk).outcome.Raised?)
    ensures field.Some? && field.value != "" && r.response.JsonResponse? ==>
      && r.response.status == 200
      && r.response.body == ToBody(HandleMessage(field.value, bk).outcome.value)
      && PageReads(r.response.body) == Intended(HandleMessage(field.value, bk).outcome.value)
  {
    match field
    case None => Exchange(JsonResponse(400, map["error" := NoMessage]), [])
    case Some(message) =>
      if message == "" then Exchange(JsonResponse(400, map["error" := NoMessage]), [])
      else
        var h := HandleMessage(message, bk);
        match h.outcome
        case Raised => Exchange(InternalServerError, h.calls)
        case Returned(reply) =>
          BodyRoundTrip(reply);
          Exchange(JsonResponse(200, ToBody(reply)), h.calls)
  }
}

=== FILE: jarvis_examples.dfy ===
/** Worked messages for the endpoint router, on concrete input. */
module JarvisExamples {
  import opened Optional
  import opened PyStr
  import opened Jarvis

  /** "Open YouTube", in any capitalisation, opens the table's YouTube
      address. */
  lemma OpenYouTube(message: string, bk: Backends)
    requires Lower(message) == "open youtube"
    ensures HandleMessage(message, bk)
      == Traced(Returned(OpenUrl("Opening youtube...", "https://www.youtube.com")), [])
  {
    YouTubeSiteName(message);
    YouTubeReply();
    OpenReply(message, bk, "youtube", "Opening youtube...", "https://www.youtube.com");
  }

  lemma YouTubeSiteName(message: string)
    requires Lower(message) == "open youtube"
    ensures StartsWith(Lower(message), OpenTrigger)
    ensures Strip(RemoveAll(Lower(message)[|OpenTrigger|..], OpenTrigger)) == "youtube"
  {
    assert Lower(message)[|OpenTrigger|..] == "youtube";
    NoOpenIn("youtube");
    SiteNameOfWord("youtube");
  }

  lemma YouTubeReply()
    ensures "Opening " + "youtube" + "..." == "Opening youtube..."
    ensures SiteUrl("youtube") == "https://www.youtube.com"
  {
  }

  lemma LibraryReply()
    ensures "Opening " + "library" + "..." == "Opening library..."
    ensures SiteUrl("library") == "https://www.library.com"
  {
  }

  lemma EmptyReply()
    ensures "Opening " + "" + "..." == "Opening ..."
    ensures SiteUrl("") == "https://www..com"
  {
  }

  /** `OpenCommand` for a site name already worked out. */
  lemma OpenReply(message: string, bk: Backends, site: string, text: string, url: string)
    requires StartsWith(Lower(message), OpenTrigger)
    requires Strip(RemoveAll(Lower(message)[|OpenTrigger|..], OpenTrigger)) == site
    requires text == "Opening " + site + "..." && url == SiteUrl(site)
    ensures HandleMessage(message, bk) == Traced(Returned(OpenUrl(text, url)), [])
  {
    OpenCommand(message, bk);
  }

  lemma LowerOpenYouTube()
    ensures Lower("Open YouTube") == "open youtube"
  {
    var lower := "open youtube";
    assert forall k :: 0 <= k < |lower| ==> Lower("Open YouTube")[k] == lower[k];
  }

  /** A word without a blank holds no "open ", whose last character is a
      blank. */
  lemma NoOpenIn(word: string)
    requires forall k :: 0 <= k < |word| ==> word[k] != ' '
    ensures !Contains(word, OpenTrigger)
  {
    forall i | 0 <= i <= |word| - |OpenTrigger|
      ensures !OccursAt(word, OpenTrigger, i)
    {
      assert word[i..i + 5][4] == word[i + 4] != OpenTrigger[4];
    }
  }

  /** A word without "open " and without whitespace at its ends is its own
      site name. */
  lemma SiteNameOfWord(word: string)
    requires !Contains(word, OpenTrigger)
    requires word == [] || (!IsSpace(word[0]) && !IsSpace(word[|word| - 1]))
    ensures Strip(RemoveAll(word, OpenTrigger)) == word
  {
    StripOfTrimmed(word);
  }

  /** Every "open " is removed, not just the leading one: "open open
      library" opens a guess for "library". */
  lemma OpenRemovesEveryOpen(message: string, bk: Backends)
    requires Lower(message) == "open open library"
    ensures HandleMessage(message, bk)
      == Traced(Returned(OpenUrl("Opening library...", "https://www.library.com")), [])
  {
    LibrarySiteName(message);
    LibraryReply();
    OpenReply(message, bk, "library", "Opening library...", "https://www.library.com");
  }

  lemma LibrarySiteName(message: string)
    requires Lower(message) == "open open library"
    ensures StartsWith(Lower(message), OpenTrigger)
    ensures Strip(RemoveAll(Lower(message)[|OpenTrigger|..], OpenTrigger)) == "library"
  {
    assert Lower(message)[|OpenTrigger|..] == OpenTrigger + "library";
    LibraryWord();
  }

  lemma LibraryWord()
    ensures Strip(RemoveAll(OpenTrigger + "library", OpenTrigger)) == "library"
  {
    NoOpenIn("library");
    SiteNameAfterOpen("library");
  }

  /** A second "open " before such a word is removed as well. */
  lemma SiteNameAfterOpen(word: string)
    requires !Contains(word, OpenTrigger)
    requires word == [] || (!IsSpace(word[0]) && !IsSpace(word[|word| - 1]))
    ensures Strip(RemoveAll(OpenTrigger + word, OpenTrigger)) == word
  {
    RemoveAllLeading(OpenTrigger, word);
    SiteNameOfWord(word);
  }

  /** `replace` makes one left-to-right pass: removing the "open " inside
      "opopen en " joins the pieces around it into a new "open ", which
      stays. */
  lemma ReplaceMakesOnePass()
    ensures RemoveAll("opopen en ", OpenTrigger) == "open "
  {
    assert "opopen en " == "op" + OpenTrigger + "en ";
    assert "op" + OpenTrigger[..|OpenTrigger| - 1] == "opopen";
    NoOpenIn("opopen");
    RemoveAllFirst("op", "en ", OpenTrigger);
    ContainsBounds("en ", OpenTrigger);
  }

  /** "open " with nothing after it guesses the address of an empty name. */
  lemma OpenNothing(message: string, bk: Backends)
    requires Lower(message) == "open "
    ensures HandleMessage(message, bk)
      == Traced(Returned(OpenUrl("Opening ...", "https://www..com")), [])
  {
    EmptySiteName(message);
    EmptyReply();
    OpenReply(message, bk, "", "Opening ...", "https://www..com");
  }

  lemma EmptySiteName(message: string)
    requires Lower(message) == "open "
    ensures StartsWith(Lower(message), OpenTrigger)
    ensures Strip(RemoveAll(Lower(message)[|OpenTrigger|..], OpenTrigger)) == ""
  {
    assert Lower(message)[|OpenTrigger|..] == "";
    StripOfTrimmed("");
  }

  /** The lowered, stripped city is looked up: "weather in Paris" with a
      provider reporting clear sky at 18.5 degrees. */
  lemma WeatherInParis(message: string, bk: Backends)
    requires Lower(message) == "weather in paris"
    requires bk.weatherKeyConfigured
    requires bk.weather("paris") == Responded(200, Some(WeatherReport("clear sky", "18.5")))
    ensures HandleMessage(message, bk)
      == Traced(Returned(Say(ParisSentence)), [WeatherCall("paris")])
  {
    ParisRoute();
    WeatherInCity(message, bk, "", " paris");
    ParisLookup(bk);
  }

  lemma LowerWeatherInParis()
    ensures Lower("weather in Paris") == "weather in paris"
  {
    var lower := "weather in paris";
    assert forall k :: 0 <= k < |lower| ==> Lower("weather in Paris")[k] == lower[k];
  }

  const ParisSentence := "The weather in paris is clear sky with a temperature of 18.5\U{B0}C."

  lemma ParisRoute()
    ensures "weather in paris" == "" + WeatherInTrigger + " paris"
    ensures !StartsWith("weather in paris", OpenTrigger)
    ensures !Contains(" paris", WeatherInTrigger)
    ensures Strip(" paris") == "paris"
  {
    var lower := "weather in paris";
    assert lower[0] != OpenTrigger[0];
    assert StripsAt(" paris", "paris", 1, 6);
    StripUnique(" paris", "paris");
  }

  lemma ParisLookup(bk: Backends)
    requires bk.weatherKeyConfigured
    requires bk.weather("paris") == Responded(200, Some(WeatherReport("clear sky", "18.5")))
    ensures GetWeather("paris", bk) == Traced(Returned(ParisSentence), [WeatherCall("paris")])
  {
    ParisText();
    WeatherByStatus("paris", bk, 200, WeatherReport("clear sky", "18.5"));
  }

  lemma ParisText()
    ensures WeatherSentence("paris", WeatherReport("clear sky", "18.5")) == ParisSentence
  {
    ParisHead();
    ParisTail();
  }

  lemma ParisHead()
    ensures "The weather in " + "paris" + " is " + "clear sky" == "The weather in paris is clear sky"
  {
  }

  lemma ParisTail()
    ensures "The weather in paris is clear sky" + " with a temperature of " + "18.5" + "\U{B0}C."
      == ParisSentence
  {
    ParisMiddle();
  }

  lemma ParisMiddle()
    ensures "The weather in paris is clear sky" + " with a temperature of "
      == "The weather in paris is clear sky with a temperature of "
  {
  }
}

=== FILE: optional.dfy ===
/** The absent-or-present value used wherever Python returns `None` or a
    lookup may miss. */
module Optional {

  datatype Option<+T> = None | Some(value: T)
}

=== FILE: pystr.dfy ===
/** The handful of Python `str` operations the assistant's routing relies on,
    written over `seq<char>`: `lower`, `strip`, `in`, `startswith`,
    `split(sep)[-1]` and `replace(pat, "")`, with the first-occurrence search
    the last two perform. */
module PyStr {
  import opened Optional

  // ---------------------------------------------------------------------
  // Case conversion
  // ---------------------------------------------------------------------

  predicate IsUpper(c: char) {
    'A' <= c <= 'Z'
  }

  /** `str.lower` on one character (ASCII letters only). */
  function LowerChar(c: char): (d: char)
    ensures !IsUpper(d)
    ensures !IsUpper(c) ==> d == c
  {
    if IsUpper(c) then (c as int + 32) as char else c
  }

  /** `str.lower`: the same length, every character lowered. */
  function Lower(s: string): (r: string)
    ensures |r| == |s|
    ensures forall k :: 0 <= k < |s| ==> r[k] == LowerChar(s[k])
  {
    seq(|s|, k requires 0 <= k < |s| => LowerChar(s[k]))
  }

  /** Lowering twice is lowering once, so re-lowering an already lowered
      message changes nothing. */
  lemma LowerIdempotent(s: string)
    ensures Lower(Lower(s)) == Lower(s)
  {
    assert forall k :: 0 <= k < |s| ==> Lower(Lower(s))[k] == Lower(s)[k];
  }

  predicate NoUpper(s: string) {
    forall k :: 0 <= k < |s| ==> !IsUpper(s[k])
  }

  /** A lowered string has no upper-case letter left, and lowering a string
      without one changes nothing. */
  lemma LowerFixesNoUpper(s: string)
    ensures NoUpper(Lower(s))
    ensures NoUpper(s) ==> Lower(s) == s
  {
  }

  // ---------------------------------------------------------------------
  // Whitespace and strip
  // ---------------------------------------------------------------------

  /** The code points Python's `str.isspace` (and so `str.strip()`) treats
      as whitespace. */
  predicate IsSpace(c: char) {
    || c == ' '
    || ('\t' <= c <= '\r')
    || ('\U{1C}' <= c <= '\U{1F}')
    || c == '\U{85}' || c == '\U{A0}' || c == '\U{1680}'
    || ('\U{2000}' <= c <= '\U{200A}')
    || c == '\U{2028}' || c == '\U{2029}' || c == '\U{202F}'
    || c == '\U{205F}' || c == '\U{3000}'
  }

  /** `str.lstrip()`. */
  function TrimLeft(s: string): (r: string)
    ensures |r| <= |s| && r == s[|s| - |r|..]
    ensures forall k :: 0 <= k < |s| - |r| ==> IsSpace(s[k])
    ensures r == [] || !IsSpace(r[0])
    decreases |s|
  {
    if |s| > 0 && IsSpace(s[0]) then TrimLeft(s[1..]) else s
  }

  /** `str.rstrip()`. */
  function TrimRight(s: string): (r: string)
    ensures |r| <= |s| && r == s[..|r|]
    ensures forall k :: |r| <= k < |s| ==> IsSpace(s[k])
    ensures r == [] || !IsSpace(r[|r| - 1])
    decreases |s|
  {
    if |s| > 0 && IsSpace(s[|s| - 1]) then TrimRight(s[..|s| - 1]) else s
  }

  /** `r` is `s[i..j]`, with only whitespace outside that slice and none at
      either of its ends. */
  ghost predicate StripsAt(s: string, r: string, i: int, j: int) {
    && 0 <= i <= j <= |s| && r == s[i..j]
    && (forall k :: 0 <= k < i ==> IsSpace(s[k]))
    && (forall k :: j <= k < |s| ==> IsSpace(s[k]))
    && (r == [] || (!IsSpace(r[0]) && !IsSpace(r[|r| - 1])))
  }

  /** `r` is what is left of `s` once leading and trailing whitespace are
      removed. */
  ghost predicate StripsTo(s: string, r: string) {
    exists i, j :: StripsAt(s, r, i, j)
  }

  /** `str.strip()`. */
  function Strip(s: string): (r: string)
    ensures StripsTo(s, r)
  {
    var t := TrimLeft(s);
    var r := TrimRight(t);
    TrimsStrip(s, t, r);
    r
  }

  /** Trimming the left, then the right, is a stripping. */
  lemma TrimsStrip(s: string, t: string, r: string)
    requires |t| <= |s| && t == s[|s| - |t|..]
    requires forall k :: 0 <= k < |s| - |t| ==> IsSpace(s[k])
    requires t == [] || !IsSpace(t[0])
    requires |r| <= |t| && r == t[..|r|]
    requires forall k :: |r| <= k < |t| ==> IsSpace(t[k])
    requires r == [] || !IsSpace(r[|r| - 1])
    ensures StripsAt(s, r, |s| - |t|, |s| - |t| + |r|)
  {
    var i := |s| - |t|;
    var j := i + |r|;
    assert t == s[i..];
    assert r == t[..|r|];
    assert r == s[i..j] by {
      forall k | 0 <= k < |r|
        ensures r[k] == s[i..j][k]
      {
        assert r[k] == t[k] == s[i + k];
      }
    }
    assert forall k :: 0 <= k < i ==> IsSpace(s[k]);
    forall k | j <= k < |s|
      ensures IsSpace(s[k])
    {
      assert s[k] == t[k - i];
    }
    assert r == [] || (!IsSpace(r[0]) && !IsSpace(r[|r| - 1])) by {
      if r != [] {
        assert r[0] == t[0];
      }
    }
  }


  /** Two non-empty strippings of the same string are the same slice. */
  lemma StripsAtSameSlice(s: string, r: string, i: int, j: int, q: string, i': int, j': int)
    requires StripsAt(s, r, i, j) && StripsAt(s, q, i', j') && r != [] && q != []
    ensures i == i' && j == j'
  {
    assert s[i] == r[0] && s[i'] == q[0];
    assert s[j - 1] == r[|r| - 1] && s[j' - 1] == q[|q| - 1];
  }

  /** A stripping to the empty string means `s` is all whitespace, so no
      stripping of it keeps a character. */
  lemma StripsAtEmpty(s: string, i: int, j: int, q: string, i': int, j': int)
    requires StripsAt(s, [], i, j) && StripsAt(s, q, i', j')
    ensures q == []
  {
    assert forall k :: 0 <= k < |s| ==> IsSpace(s[k]);
    assert forall k :: 0 <= k < |q| ==> IsSpace(q[k]);
  }

  /** There is only one way to strip a string: `Strip` is the stripping
      `StripsTo` describes. */
  lemma StripUnique(s: string, r: string)
    requires StripsTo(s, r)
    ensures r == Strip(s)
  {
    var i, j :| StripsAt(s, r, i, j);
    var q := Strip(s);
    var i', j' :| StripsAt(s, q, i', j');
    if r == [] {
      StripsAtEmpty(s, i, j, q, i', j');
    } else if q == [] {
      StripsAtEmpty(s, i', j', r, i, j);
    } else {
      StripsAtSameSlice(s, r, i, j, q, i', j');
    }
  }

  /** Stripping keeps only characters of the original. */
  lemma StripKeepsNoUpper(s: string)
    requires NoUpper(s)
    ensures NoUpper(Strip(s))
  {
    var i, j :| StripsAt(s, Strip(s), i, j);
  }

  /** A string with no whitespace at either end strips to itself. */
  lemma StripOfTrimmed(s: string)
    requires s == [] || (!IsSpace(s[0]) && !IsSpace(s[|s| - 1]))
    ensures Strip(s) == s
  {
    assert StripsAt(s, s, 0, |s|) by {
      assert s == s[0..|s|];
    }
    StripUnique(s, s);
  }

  /** Stripping a stripped string changes nothing. */
  lemma StripIdempotent(s: string)
    ensures Strip(Strip(s)) == Strip(s)
  {
    var r := Strip(s);
    var i, j :| StripsAt(s, r, i, j);
    assert StripsAt(r, r, 0, |r|) by {
      assert r == r[0..|r|];
    }
    StripUnique(r, r);
  }

  // ---------------------------------------------------------------------
  // Substrings
  // ---------------------------------------------------------------------

  /** `sub` occurs in `s` starting at index `i`. */
  predicate OccursAt(s: string, sub: string, i: int) {
    0 <= i && i + |sub| <= |s| && s[i..i + |sub|] == sub
  }

  /** Python's `sub in s`. */
  predicate Contains(s: string, sub: string) {
    exists i :: 0 <= i <= |s| - |sub| && OccursAt(s, sub, i)
  }

  /** `s.startswith(p)`: an occurrence at the very start. */
  predicate StartsWith(s: string, p: string): (b: bool)
    ensures b <==> OccursAt(s, p, 0)
  {
    |p| <= |s| && s[..|p|] == p
  }

  /** Whatever is spliced into the middle of a text occurs in it. */
  lemma ContainsMiddle(a: string, b: string, c: string)
    ensures Contains(a + b + c, b)
  {
    assert OccursAt(a + b + c, b, |a|) by {
      assert (a + b + c)[|a|..|a| + |b|] == b;
    }
  }

  /** The empty string is in every string, nothing longer than `s` is in
      it, and a prefix of `s` is in it. */
  lemma ContainsBounds(s: string, sub: string)
    ensures sub == [] ==> Contains(s, sub)
    ensures Contains(s, sub) ==> |sub| <= |s|
    ensures StartsWith(s, sub) ==> Contains(s, sub)
  {
    if StartsWith(s, sub) {
      assert OccursAt(s, sub, 0);
    }
  }

  /** An occurrence inside a suffix of `s` is an occurrence in `s`, shifted. */
  lemma OccursInSuffix(s: string, a: nat, sub: string, x: int)
    requires a <= |s|
    ensures OccursAt(s[a..], sub, x) <==> (0 <= x && OccursAt(s, sub, a + x))
  {
    if 0 <= x && x + |sub| <= |s| - a {
      assert s[a..][x..x + |sub|] == s[a + x..a + x + |sub|];
    }
  }

  /** An occurrence of a longer needle is an occurrence of each of its
      prefixes: whatever contains "weather in" contains "weather". */
  lemma ContainsPrefixOfNeedle(s: string, sub: string, p: string)
    requires Contains(s, sub) && StartsWith(sub, p)
    ensures Contains(s, p)
  {
    var i :| 0 <= i <= |s| - |sub| && OccursAt(s, sub, i);
    assert s[i..i + |p|] == s[i..i + |sub|][..|p|];
    assert OccursAt(s, p, i);
  }

  /** The left-to-right search behind `replace` and `split`: the first index
      at or after `from` where `sub` occurs. */
  function FindFrom(s: string, sub: string, from: nat): (r: Option<nat>)
    requires from <= |s|
    ensures r.Some? ==> from <= r.value && OccursAt(s, sub, r.value)
    ensures r.Some? ==> forall j :: from <= j < r.value ==> !OccursAt(s, sub, j)
    ensures r.None? ==> forall j :: from <= j ==> !OccursAt(s, sub, j)
    decreases |s| - from
  {
    if OccursAt(s, sub, from) then Some(from)
    else if from + |sub| >= |s| then None
    else FindFrom(s, sub, from + 1)
  }

  /** The first occurrence of `sub`, as `replace` and `split` find it; found
      exactly when `sub in s`. */
  function Find(s: string, sub: string): (r: Option<nat>)
    ensures r.Some? <==> Contains(s, sub)
    ensures r.Some? ==> OccursAt(s, sub, r.value)
    ensures r.Some? ==> forall j :: 0 <= j < r.value ==> !OccursAt(s, sub, j)
  {
    FindFrom(s, sub, 0)
  }

  /** `r` is a suffix of `s`. */
  predicate IsSuffix(r: string, s: string) {
    |r| <= |s| && r == s[|s| - |r|..]
  }

  /** `s.split(sep)[-1]`: split scans left to right for non-overlapping
      separators; the last piece is what follows the last one found. */
  function LastPiece(s: string, sep: string): (r: string)
    requires |sep| > 0
    ensures IsSuffix(r, s)
    ensures !Contains(r, sep)
    ensures !Contains(s, sep) ==> r == s
    ensures Contains(s, sep) ==> |r| + |sep| <= |s| && OccursAt(s, sep, |s| - |r| - |sep|)
    decreases |s|
  {
    match Find(s, sep)
    case None => s
    case Some(i) =>
      var t := s[i + |sep|..];
      var r := LastPiece(t, sep);
      LastPieceStep(s, sep, i, t, r);
      r
  }

  /** The step of `LastPiece`: the last piece of the text after the first
      separator is the last piece of the whole text. */
  lemma LastPieceStep(s: string, sep: string, i: nat, t: string, r: string)
    requires OccursAt(s, sep, i) && t == s[i + |sep|..]
    requires IsSuffix(r, t)
    requires !Contains(t, sep) ==> r == t
    requires Contains(t, sep) ==> |r| + |sep| <= |t| && OccursAt(t, sep, |t| - |r| - |sep|)
    ensures IsSuffix(r, s)
    ensures Contains(s, sep)
    ensures |r| + |sep| <= |s| && OccursAt(s, sep, |s| - |r| - |sep|)
  {
    assert 0 <= i <= |s| - |sep|;
    if Contains(t, sep) {
      OccursInSuffix(s, i + |sep|, sep, |t| - |r| - |sep|);
    }
  }

  /** No proper suffix of `sep` is also a prefix of it, so two occurrences of
      `sep` can never overlap. */
  predicate NoSelfOverlap(sep: string) {
    forall d :: 0 < d < |sep| ==> sep[d..] != sep[..|sep| - d]
  }

  /** Two occurrences of a separator that cannot overlap itself are at least
      its length apart. */
  lemma OccurrencesApart(s: string, sep: string, p: int, q: int)
    requires NoSelfOverlap(sep) && OccursAt(s, sep, p) && OccursAt(s, sep, q) && p < q
    ensures p + |sep| <= q
  {
    if q < p + |sep| {
      OverlapSlices(s, sep, p, q, q - p);
      assert false;
    }
  }

  /** Where two occurrences overlap, a suffix of `sep` equals its prefix. */
  lemma OverlapSlices(s: string, sep: string, p: int, q: int, d: int)
    requires OccursAt(s, sep, p) && OccursAt(s, sep, q) && p < q < p + |sep| && d == q - p
    ensures 0 < d < |sep| && sep[d..] == sep[..|sep| - d]
  {
    assert sep[d..] == s[q..p + |sep|] by {
      assert sep == s[p..p + |sep|];
    }
    assert sep[..|sep| - d] == s[q..p + |sep|] by {
      assert sep == s[q..q + |sep|];
    }
  }

  /** An occurrence at or after index `a` is one inside the suffix `s[a..]`. */
  lemma ContainsInSuffix(s: string, a: nat, sub: string, x: int)
    requires a <= x && OccursAt(s, sub, x)
    ensures Contains(s[a..], sub)
  {
    OccursInSuffix(s, a, sub, x - a);
  }

  /** For a separator that cannot overlap itself, the last piece of the split
      is exactly the text after the last occurrence: any decomposition
      `pre + sep + raw` with no separator inside `raw` names it. */
  lemma LastPieceUnique(s: string, sep: string, pre: string, raw: string)
    requires |sep| > 0 && NoSelfOverlap(sep)
    requires s == pre + sep + raw && !Contains(raw, sep)
    ensures LastPiece(s, sep) == raw
  {
    var p := |pre|;
    assert OccursAt(s, sep, p) by {
      assert s[p..p + |sep|] == sep;
    }
    assert raw == s[p + |sep|..];
    var r := LastPiece(s, sep);
    var q := |s| - |r| - |sep|;
    assert r == s[q + |sep|..];
    LastOccurrenceUnique(s, sep, p, q);
  }

  /** An occurrence with no further occurrence after it is the last one:
      for a separator that cannot overlap itself there is only one. */
  lemma LastOccurrenceUnique(s: string, sep: string, p: int, q: int)
    requires NoSelfOverlap(sep) && OccursAt(s, sep, p) && OccursAt(s, sep, q)
    requires !Contains(s[p + |sep|..], sep) && !Contains(s[q + |sep|..], sep)
    ensures p == q
  {
    if q < p {
      OccurrencesApart(s, sep, q, p);
      ContainsInSuffix(s, q + |sep|, sep, p);
      assert false;
    } else if p < q {
      OccurrencesApart(s, sep, p, q);
      ContainsInSuffix(s, p + |sep|, sep, q);
      assert false;
    }
  }

  /** `s.replace(pat, "")`: every non-overlapping occurrence, found left to
      right, is deleted. Other characters are kept in order; text without
      `pat` comes back unchanged and text with it gets shorter. */
  function RemoveAll(s: string, pat: string): (r: string)
    requires |pat| > 0
    ensures |r| <= |s|
    ensures !Contains(s, pat) ==> r == s
    ensures Contains(s, pat) ==> |r| + |pat| <= |s|
    ensures NoUpper(s) ==> NoUpper(r)
    decreases |s|
  {
    match Find(s, pat)
    case None => s
    case Some(i) => s[..i] + RemoveAll(s[i + |pat|..], pat)
  }

  /** The first occurrence is removed and everything before it kept: when
      no occurrence starts inside `a`, the text after the pattern is
      processed on its own. With the identity on text that lacks the pattern,
      this pins `replace(pat, "")` on every input. */
  lemma RemoveAllFirst(a: string, b: string, pat: string)
    requires |pat| > 0 && !Contains(a + pat[..|pat| - 1], pat)
    ensures RemoveAll(a + pat + b, pat) == a + RemoveAll(b, pat)
  {
    var s := a + pat + b;
    var n := |a| + |pat| - 1;
    assert s[..n] == a + pat[..|pat| - 1];
    assert OccursAt(s, pat, |a|) by {
      assert s[|a|..|a| + |pat|] == pat;
    }
    forall j | 0 <= j < |a|
      ensures !OccursAt(s, pat, j)
    {
      assert s[j..j + |pat|] == s[..n][j..j + |pat|];
      assert !OccursAt(s[..n], pat, j);
    }
    assert Find(s, pat) == Some(|a|);
    assert s[..|a|] == a;
    assert s[|a| + |pat|..] == b;
  }

  /** A leading occurrence of the pattern is simply dropped. */
  lemma RemoveAllLeading(pat: string, t: string)
    requires |pat| > 0
    ensures RemoveAll(pat + t, pat) == RemoveAll(t, pat)
  {
    var s := pat + t;
    assert OccursAt(s, pat, 0) by {
      assert s[0..|pat|] == pat;
    }
    assert Find(s, pat) == Some(0);
    assert s[|pat|..] == t;
  }
}
